=== FILE: README.md ===
# AI call-feedback service — Dafny model

The service takes an audio recording of a customer call. It has it transcribed by a
speech-to-text provider (AssemblyAI) and answers with mock quality scores and two
canned narratives quoting the transcript. This project models two parts of it:

- **The `POST /api/analyze-call` handler**, in these modules:
  - `RateLimiter`: the per-client cooldown of 10 000 ms.
  - `AnalyzeCall`: validation order; the upload, transcription-request and polling
    calls; how each provider failure becomes an HTTP response.
  - `Polling`: the poll loop, modelled as recursion over a finite sequence of poll
    replies.
  - `Catalog` and `MockScorer`: the mock scorer over the ten-entry evaluation catalog,
    and the narrative text.
  - `Provider`: the shape of the provider's replies.
- **The pure parts of the upload page**, in `ResultsPage`: the score colour bands,
  the key-to-label transform, drop acceptance, and the state changes of the
  "Process Feedback" action.

`EndToEnd` connects the two parts.

The model replaces side effects with inputs:
- The clock is `Request.now`.
- The `x-forwarded-for` header is `Request.forwardedFor`.
- `process.env.ASSEMBLYAI_API_KEY` is `apiKey`.
- Each provider call's outcome is a `Reply` value: ok with its decoded payload, non-ok
  with status and body, or thrown. The poll replies are a sequence.
- `Math.random()` is `draw: nat -> Draw`, a stream of reals in `[0, 1)`. The scorer
  takes draws in catalog order, one per parameter that has an input type.
- The cooldown map, a module-level `Map` in the server process, is threaded through
  `Post` as `limits`.

The catalog entry `rebatedCustomerOffer` has no `inputType`. The scoring `forEach`
matches neither of its branches for that entry, so the response carries nine scores
and no `rebatedCustomerOffer` key. Whether that entry was meant to be scored (for
instance as pass/fail) cannot be told from the code. The model follows what the code
does: `MockScores` and `AnalyzeCall.AnalysisShape` state nine keys, without that one.

## Model

| member | source | states |
|---|---|---|
| Wrappers.OrElse | src/app/api/analyze-call/route.ts:143 | JavaScript `v \|\| fallback` on an optional string: the value when it is present and non-empty, otherwise the fallback; the result is always one of the two |
| AnalyzeCall.ClientId | src/app/api/analyze-call/route.ts:84 | the client id is the forwarded-for header when that is non-empty, else `127.0.0.1`; never empty |
| AnalyzeCall.HeaderlessClientsShareCooldown | src/app/api/analyze-call/route.ts:84-99 | all requests without the header are one client, so an accepted one makes any other headerless request within 10 000 ms get 429 |
| RateLimiter.CheckAndRecord | src/app/api/analyze-call/route.ts:88-99 | a request is let through exactly when the client has no entry or its last one is at least 10 000 ms old; if let through, the entry becomes `now` and the key set grows by that client only; if refused, the map is unchanged; other clients' entries never change |
| RateLimiter.FirstRequestAllowed | src/app/api/analyze-call/route.ts:88-99 | a client never seen before is always let through and recorded |
| RateLimiter.SecondRequestWithinIntervalRejected | src/app/api/analyze-call/route.ts:88-96 | after an accepted request, a second one less than an interval later is refused, and the recorded time stays the first |
| RateLimiter.RequestsOneIntervalApartAllowed | src/app/api/analyze-call/route.ts:88-99 | two requests of one client at least an interval apart are both accepted, and the second time is recorded |
| RateLimiter.DistinctClientsCommute | src/app/api/analyze-call/route.ts:88-99 | requests of two different clients get the same verdicts in either order and leave the same map |
| RateLimiter.EntryKept | src/app/api/analyze-call/route.ts:88-99 | a recorded entry survives a request of another client and a refused request of its own client |
| RateLimiter.RecordedTimeHolds | src/app/api/analyze-call/route.ts:88-99 | over any sequence of requests, after an accepted request of a client and until that client's next accepted one, the map holds the accepted request's time |
| RateLimiter.AcceptedRequestsSpaced | src/app/api/analyze-call/route.ts:3-6 | over any sequence of requests, two consecutive accepted requests of one client are at least 10 000 ms apart |
| Catalog.KeysMembership | src/app/api/analyze-call/route.ts:9-79 | a key is among a catalog's keys exactly when some entry carries it; it is among the typed keys exactly when some typed entry carries it; typed keys are a subset of all keys |
| Catalog.UntypedKeyExcluded | src/app/api/analyze-call/route.ts:24-29 | in a catalog with distinct keys, the key of an entry with no input type is not a typed key, so the typed keys are a proper subset of all keys |
| Catalog.CatalogWeights | src/app/api/analyze-call/route.ts:9-79 | every catalog weight is at most 15, and 15 occurs |
| Catalog.CatalogUntypedEntry | src/app/api/analyze-call/route.ts:9-79 | the catalog has ten entries; the third, `rebatedCustomerOffer`, is the only one without an input type |
| Catalog.CatalogKeysDistinct | src/app/api/analyze-call/route.ts:9-79 | no two catalog entries share a key |
| Catalog.CatalogTypedCount | src/app/api/analyze-call/route.ts:9-79 | nine catalog entries carry an input type |
| MockScorer.FloorScaledDrawInRange | src/app/api/analyze-call/route.ts:237 | `floor(r * (w + 1))` for `r` in `[0, 1)` lies in `0..w` |
| MockScorer.ScoreOne | src/app/api/analyze-call/route.ts:235-241 | a score lies in `0..weight`; a pass/fail score is the weight when the draw exceeds 0.5 and 0 otherwise |
| MockScorer.ScoreReachesEveryValue | src/app/api/analyze-call/route.ts:236-237 | every value in `0..weight` is the score of some draw |
| MockScorer.ScoreInterval | src/app/api/analyze-call/route.ts:236-237 | a SCORE parameter of weight `w` gets `s` exactly when the draw lies in `[s/(w+1), (s+1)/(w+1))`, so each of the `w + 1` values takes an equal share of the draws |
| MockScorer.PassFailReachesBothValues | src/app/api/analyze-call/route.ts:239-240 | a pass/fail entry scores 0 on a low draw and its weight on a high one |
| MockScorer.ScoreEntries | src/app/api/analyze-call/route.ts:233-242 | the scored keys are exactly the keys of the entries that have an input type |
| MockScorer.ScoreCount | src/app/api/analyze-call/route.ts:233-242 | with distinct keys, the number of scores equals the number of typed entries |
| MockScorer.ScoresFit | src/app/api/analyze-call/route.ts:233-242 | with distinct keys, every typed entry gets a score that fits its type and weight |
| MockScorer.DrawOrder | src/app/api/analyze-call/route.ts:234-241 | with distinct keys, typed entry `i` is scored from the draw after those of the typed entries before it, so draws are taken in catalog order |
| MockScorer.MockScores | src/app/api/analyze-call/route.ts:233-242 | the mock scores: nine keys, all catalog keys, none `rebatedCustomerOffer`, each fitting its parameter, all within `0..15` |
| MockScorer.ScoresDrawnInOrder | src/app/api/analyze-call/route.ts:234-241 | with distinct keys, every typed entry holds the score of its type and weight for the draw after those of the typed entries before it |
| MockScorer.MockScoresFromDraws | src/app/api/analyze-call/route.ts:233-242 | each typed catalog parameter's mock score is the score of its type and weight for the draw after those of the typed catalog parameters before it, one draw each in catalog order |
| MockScorer.Excerpt | src/app/api/analyze-call/route.ts:244-246 | the excerpt is a prefix of the transcript: all of it when it has at most 100 characters, otherwise exactly 100 |
| MockScorer.Quote | src/app/api/analyze-call/route.ts:244-251 | a narrative is the fixed lead, then the excerpt, then the fixed tail, so it contains the excerpt |
| MockScorer.OverallFeedback | src/app/api/analyze-call/route.ts:244-247 | the feedback narrative is non-empty and contains the transcript's excerpt |
| MockScorer.Observation | src/app/api/analyze-call/route.ts:248-251 | the observation narrative is non-empty and contains the transcript's excerpt |
| Provider.FailureFrom | src/app/api/analyze-call/route.ts:139-146 | a non-ok reply with a JSON body answers with the provider's status and its non-empty `error`, else the default message; a non-JSON body makes the catch-all answer 500 |
| Polling.PollLoop | src/app/api/analyze-call/route.ts:186-217 | the loop polls until the first reply that stops it and ends with that reply's outcome; if no reply stops it, it polls once per reply and is still pending |
| Polling.StopOutcome | src/app/api/analyze-call/route.ts:197-216 | a stopping poll reply yields a transcript exactly when it is an ok `completed` reply with non-empty text; a thrown call gives 500; a non-ok reply with a JSON body gives its status and message, one whose body is not JSON the catch-all 500 "Internal Server Error"; a job `error` gives 500 with the job's message or the default; a `completed` reply without text gives 500 "Transcription failed or empty." |
| Polling.AwaitTranscript | src/app/api/analyze-call/route.ts:183-224 | a job already `completed` or `error` when requested makes no poll and answers 500 "Transcription failed or empty."; a pending job runs the poll loop; never more polls than replies |
| Polling.TranscriptOnlyFromCompletedPoll | src/app/api/analyze-call/route.ts:206-224 | a transcript comes only from a pending job whose last poll was an ok `completed` reply carrying that same non-empty text |
| Polling.JobErrorReported | src/app/api/analyze-call/route.ts:210-215 | the first stopping reply being a job `error` answers 500 with the job's message (or the default) |
| Polling.PollStatusPassedThrough | src/app/api/analyze-call/route.ts:197-204 | the first stopping reply being non-ok with a JSON body answers with that reply's status and message |
| Polling.FirstStopDecides | src/app/api/analyze-call/route.ts:186-217 | when reply `i` is the first that stops the loop, the outcome is that reply's after `i + 1` polls |
| Polling.NoStopKeepsWaiting | src/app/api/analyze-call/route.ts:186-195 | when no reply stops the loop, every reply is polled and the handler is still waiting |
| AnalyzeCall.Process | src/app/api/analyze-call/route.ts:101-135 | the provider is contacted, or an analysis answered, only for a parsed form with a file and a configured key; an analysis needs successful upload and transcription requests |
| AnalyzeCall.Uploading | src/app/api/analyze-call/route.ts:127-149 | the first provider call is the upload with the configured key; an analysis needs both provider requests to succeed |
| AnalyzeCall.Transcribing | src/app/api/analyze-call/route.ts:152-180 | after the upload, the next call requests transcription of the uploaded URL; an analysis needs it to succeed |
| AnalyzeCall.Analyzing | src/app/api/analyze-call/route.ts:183-259 | the wait makes at most one poll per reply, each of the created job with the configured key |
| AnalyzeCall.Answer | src/app/api/analyze-call/route.ts:219-259 | the response for how the wait ended: no response exactly while pending, an analysis exactly for a transcript (with the mock scores and both narratives quoting it), and the failure's status and message otherwise |
| AnalyzeCall.Polls | src/app/api/analyze-call/route.ts:186-195 | `n` polls, all of the same job with the same key |
| AnalyzeCall.Post | src/app/api/analyze-call/route.ts:81-99 | a client in cooldown gets 429 with no change and no call; otherwise its time is recorded before anything else; provider calls and an analysis happen only for a validated request |
| AnalyzeCall.ValidationOrder | src/app/api/analyze-call/route.ts:98-135 | past the cooldown: an unreadable body answers 500, then a missing audio value 400, then a missing key 500, and a non-empty text audio value with a key reaches the catch-all 500 "Internal Server Error" where its bytes are read; each with no provider call and with the new cooldown kept |
| AnalyzeCall.OnlyOwnEntryChanges | src/app/api/analyze-call/route.ts:98-99 | a request changes no other client's cooldown entry |
| AnalyzeCall.UploadErrorPassedThrough | src/app/api/analyze-call/route.ts:139-146 | a non-ok upload with a JSON body answers with the provider's status and message after exactly one call |
| AnalyzeCall.TranscribeErrorPassedThrough | src/app/api/analyze-call/route.ts:167-177 | a non-ok transcription request with a JSON body answers with the provider's status and message after the upload and that request |
| AnalyzeCall.UploadFailureCaught | src/app/api/analyze-call/route.ts:127-146 | an upload that throws, or fails with a body that is not JSON, is answered by the catch-all 500 "Internal Server Error" after that one call (the handler's catch block, lines 260-266) |
| AnalyzeCall.TranscribeFailureCaught | src/app/api/analyze-call/route.ts:152-177 | a transcription request that throws, or fails with a body that is not JSON, is answered by the catch-all 500 "Internal Server Error" after the upload and that request |
| AnalyzeCall.CallSequence | src/app/api/analyze-call/route.ts:127-195 | the calls are one upload, then, if it succeeded, one transcription request for the uploaded URL, then polls of the created job, at most one per reply; all with the configured key |
| AnalyzeCall.AnalysisFromTranscript | src/app/api/analyze-call/route.ts:219-259 | a 200 answer comes from a validated request whose provider requests succeeded and whose wait produced a non-empty transcript; it carries the mock scores and two narratives quoting that transcript |
| AnalyzeCall.AnalysisShape | src/app/api/analyze-call/route.ts:233-259 | a 200 answer holds nine scores, none for `rebatedCustomerOffer`, each fitting its parameter and within `0..15` |
| AnalyzeCall.WaitDecides | src/app/api/analyze-call/route.ts:179-259 | once upload and transcription request succeed, the answer depends only on how the wait ends, and the calls are those two plus one poll per reply consumed |
| AnalyzeCall.WaitAnswer | src/app/api/analyze-call/route.ts:152-259 | once upload and transcription request succeed, the answer is the one for how the wait ends |
| AnalyzeCall.WaitCalls | src/app/api/analyze-call/route.ts:127-195 | once upload and transcription request succeed, the calls are those two followed by one poll of the created job per reply the wait consumed |
| AnalyzeCall.TranscribedStage | src/app/api/analyze-call/route.ts:179-259 | after a successful transcription request, the answer is the wait's and the calls are that request followed by the wait's polls |
| AnalyzeCall.UploadedStage | src/app/api/analyze-call/route.ts:139-152 | after a successful upload of a validated request, the answer is the transcription stage's, and the calls are the upload followed by that stage's calls |
| AnalyzeCall.JobErrorAnswered | src/app/api/analyze-call/route.ts:206-216 | a poll reporting the job as `error`, before any other stopping reply, is answered with 500 and the job's message or the default, after that poll |
| AnalyzeCall.PollErrorPassedThrough | src/app/api/analyze-call/route.ts:197-204 | a non-ok poll with a JSON body, before any other stopping reply, is answered with that poll's status and message or the default |
| AnalyzeCall.SettledJobSkipsPolling | src/app/api/analyze-call/route.ts:183-224 | a job already settled when requested answers 500 "Transcription failed or empty." after exactly the upload and transcription calls |
| ResultsPage.GetScoreColor | src/app/page.tsx:84-89 | fail exactly for 0..49, medium exactly for 50..79, pass exactly for 80..100, no colour exactly outside 0..100 |
| ResultsPage.BandsMonotone | src/app/page.tsx:84-89 | within 0..100 a higher score never gets a lower band |
| ResultsPage.SpaceBeforeCapitals | src/app/page.tsx:149 | a space goes before every capital letter: one extra character per capital, and the result never starts with a capital |
| ResultsPage.UppercaseFirst | src/app/page.tsx:150 | only the first character changes, to its upper case |
| ResultsPage.Label | src/app/page.tsx:148-150 | a label has one more character per capital in the key; a key starting in lower case gives a capitalised label, one starting with a capital a label starting with a space |
| ResultsPage.DropUndoesSpacing | src/app/page.tsx:149 | removing the space before each capital recovers the key |
| ResultsPage.LabelRoundTrip | src/app/page.tsx:148-150 | the key can be recovered from its label |
| ResultsPage.LabelInjective | src/app/page.tsx:145-150 | different score keys are shown under different labels |
| ResultsPage.HandleDrop | src/app/page.tsx:32-44 | an `audio/mpeg` or `audio/wav` drop selects the file, sets the preview and clears result and error; anything else only sets the drop error |
| ResultsPage.DropAcceptedIff | src/app/page.tsx:36-43 | a drop clears the error exactly when it delivers one of the two accepted types; near spellings such as `audio/mp3` are refused |
| ResultsPage.HandleFileChange | src/app/page.tsx:22-30 | a chosen file is taken whatever its type, with preview set and result and error cleared; choosing nothing changes nothing |
| ResultsPage.HandleProcessFeedback | src/app/page.tsx:51-59 | a request is sent exactly when a file is selected; without one only the no-file error is set; with one, loading starts, error and result are cleared, and nothing else changes |
| ResultsPage.EnabledButtonSends | src/app/page.tsx:131-137 | pressing the enabled button always sends a request |
| ResultsPage.FinishAnalysis | src/app/page.tsx:61-81 | loading ends and the file is kept; a delivered result is shown; a refusal shows the server's non-empty message, else "Failed to analyze audio."; a thrown error shows its own message when non-empty, else the generic one; after a refusal or a throw the previous result is kept |
| ResultsPage.SuccessfulRoundTrip | src/app/page.tsx:51-81 | a successful request shows exactly the delivered result, with no error and loading over |
| EndToEnd.EmittedScoresShowAsFail | src/app/page.tsx:145-157 | every score the endpoint can send is at most 15, so the page always shows it in the fail band |

## Left out

- Networking, JSON encoding and decoding, `FormData`, and the 3-second `setTimeout` between polls are not modelled. Provider outcomes are inputs, and a decoded ok payload is assumed to have the expected fields.
- The random 500–1500 ms latency before scoring is not modelled. Its `Math.random()` draw is not part of the `draw` stream.
- Logging (`console.log`, `console.warn`, `console.error`) is not modelled: it does not affect responses.
- MockScorer.ScoreOne: the arithmetic is over reals, not IEEE doubles. The model ignores rounding of `Math.random() * (weight + 1)`, which cannot push the floor past `weight` for these small weights.
- MockScorer.Excerpt: counts characters, not UTF-16 code units. Surrogate pairs in a transcript can make JavaScript's `substring` cut differently.
- MockScorer.OverallFeedback: the contract states non-emptiness and the quoted excerpt only. The fixed surrounding text is the body, and `Quote`'s contract places it around the excerpt.
- MockScorer.Observation: the same as `OverallFeedback`.
- Polling.PollLoop: a provider that never settles the job makes the handler poll forever. The model stops at the end of the reply sequence and reports it as still waiting (`Pending`, `NoResponse`).
- Provider.FailureFrom: a JSON `error` field that is present but not a string is not modelled. It is taken to be either a string or absent.
- Concurrent requests interleaving around the cooldown map's read and write are not modelled. Requests are handled one at a time.
- ResultsPage.UppercaseFirst: `toUpperCase` is modelled for ASCII letters only. The keys are ASCII.
- ResultsPage.Label: the length `|key| + CountUpper(key)` holds for the ASCII upper-casing modelled here; JavaScript's `toUpperCase` can lengthen a non-ASCII first letter (`"ß"` becomes `"SS"`).
- ResultsPage.LabelRoundTrip: the key is recoverable under ASCII upper-casing only; with JavaScript's `toUpperCase` a non-ASCII lower-case first letter such as `"é"` is shown as `"É"` and cannot be told apart.
- ResultsPage.LabelInjective: distinct keys get distinct labels under ASCII upper-casing only; with JavaScript's `toUpperCase` the keys `"é"` and `"É"` share the label `"É"`. Every key the handler emits is ASCII.
- ResultsPage.GetScoreColor: defined on integers only. The endpoint sends integers, and fractional scores between bands are not modelled.
- React rendering, `URL.createObjectURL`, `handleDragOver`, and the file input's `accept` filter are not modelled. The preview URL is an input to `HandleDrop` and `HandleFileChange`.

=== FILE: analyze_call.dfy ===
/** The `POST /api/analyze-call` handler: cooldown check, request validation, upload,
    transcription request, polling, and the mock analysis, with every failure turned
    into an HTTP response. Provider calls, the clock, the environment and
    `Math.random()` are inputs. */
module AnalyzeCall {
  import opened Wrappers
  import opened RateLimiter
  import opened Provider
  import opened Polling
  import opened MockScorer
  import Catalog

  const LoopbackClient: string := "127.0.0.1"
  const NoAudio: string := "No audio file provided."
  const NoApiKey: string := "AssemblyAI API key not configured."
  const UploadFailed: string := "Failed to upload audio to AssemblyAI."
  const TranscribeFailed: string := "Failed to transcribe audio with AssemblyAI."

  /** The `audio` field of the form: missing, a plain text value, or a file. */
  datatype AudioField = Absent | Text(value: string) | File

  /** The request body: a form, or a body `formData()` rejects. */
  datatype Form = Unparsable | Parsed(audio: AudioField)

  /** What the handler reads from the incoming request: the `x-forwarded-for` header,
      the arrival time, and the body. */
  datatype Request = Request(forwardedFor: Option<string>, now: int, form: Form)

  /** What the provider is sent, in order, each with the configured API key. */
  datatype ProviderCall = Upload(apiKey: string) | Transcribe(apiKey: string, audioUrl: string) | PollJob(apiKey: string, jobId: string)

  /** The handler's answer: an error with its status, the analysis (status 200), or
      none yet because the transcription job is still being polled. */
  datatype Response =
    | ErrorResponse(status: int, error: string)
    | Analysis(scores: map<string, int>, overallFeedback: string, observation: string)
    | NoResponse

  /** The answer, the cooldown map afterwards, and the provider calls made. */
  datatype Outcome = Outcome(response: Response, limits: Timestamps, calls: seq<ProviderCall>)

  /** The client id: the forwarded-for header when it is non-empty, else loopback. */
  function ClientId(forwardedFor: Option<string>): (id: string)
    ensures id != ""
    ensures Truthy(forwardedFor) ==> id == forwardedFor.value
    ensures !Truthy(forwardedFor) ==> id == LoopbackClient
  {
    OrElse(forwardedFor, LoopbackClient)
  }

  /** The form holds an audio value JavaScript treats as present. */
  predicate HasAudio(audio: AudioField)
  {
    audio.File? || (audio.Text? && audio.value != "")
  }

  /** The request got past the cooldown and validation, so the provider is contacted. */
  predicate Validated(limits: Timestamps, req: Request, apiKey: Option<string>)
  {
    && !CoolingDown(limits, ClientId(req.forwardedFor), req.now)
    && req.form.Parsed?
    && req.form.audio.File?
    && Truthy(apiKey)
  }

  function ErrorOf(f: Failure): Response
  {
    ErrorResponse(f.status, f.message)
  }

  /** The handler after the cooldown check: validation, then the provider calls.
      Returns the response and the provider calls made. */
  function Process(
    form: Form, apiKey: Option<string>,
    upload: Reply<UploadData>, transcribe: Reply<TranscriptData>,
    polls: seq<Reply<PollData>>, draw: nat -> Draw): (r: (Response, seq<ProviderCall>))
    ensures r.1 != [] || r.0.Analysis? ==> form.Parsed? && form.audio.File? && Truthy(apiKey)
    ensures r.0.Analysis? ==> upload.Ok? && transcribe.Ok?
  {
    match form
    case Unparsable => (ErrorResponse(500, InternalServerError), [])
    case Parsed(audio) =>
      if !HasAudio(audio) then (ErrorResponse(400, NoAudio), [])
      else if !Truthy(apiKey) then (ErrorResponse(500, NoApiKey), [])
      else if audio.Text? then
        // a text value has no arrayBuffer(): building the upload body throws
        (ErrorResponse(500, InternalServerError), [])
      else Uploading(apiKey.value, upload, transcribe, polls, draw)
  }

  /** Uploading the audio, and what follows a successful upload. */
  function Uploading(
    key: string, upload: Reply<UploadData>, transcribe: Reply<TranscriptData>,
    polls: seq<Reply<PollData>>, draw: nat -> Draw): (r: (Response, seq<ProviderCall>))
    ensures r.1 != [] && r.1[0] == Upload(key)
    ensures r.0.Analysis? ==> upload.Ok? && transcribe.Ok?
  {
    match upload
    case Thrown => (ErrorResponse(500, InternalServerError), [Upload(key)])
    case NotOk(code, body) => (ErrorOf(FailureFrom(code, body, UploadFailed)), [Upload(key)])
    case Ok(u) =>
      var (response, calls) := Transcribing(key, u.uploadUrl, transcribe, polls, draw);
      (response, [Upload(key)] + calls)
  }

  /** Requesting the transcription of the uploaded audio, and what follows. */
  function Transcribing(
    key: string, audioUrl: string, transcribe: Reply<TranscriptData>,
    polls: seq<Reply<PollData>>, draw: nat -> Draw): (r: (Response, seq<ProviderCall>))
    ensures r.1 != [] && r.1[0] == Transcribe(key, audioUrl)
    ensures r.0.Analysis? ==> transcribe.Ok?
  {
    match transcribe
    case Thrown => (ErrorResponse(500, InternalServerError), [Transcribe(key, audioUrl)])
    case NotOk(code, body) => (ErrorOf(FailureFrom(code, body, TranscribeFailed)), [Transcribe(key, audioUrl)])
    case Ok(t) =>
      var (response, calls) := Analyzing(key, t, polls, draw);
      (response, [Transcribe(key, audioUrl)] + calls)
  }

  /** `n` polls of job `id`. */
  function Polls(key: string, id: string, n: nat): (calls: seq<ProviderCall>)
    ensures |calls| == n
    ensures forall j | 0 <= j < n :: calls[j] == PollJob(key, id)
  {
    if n == 0 then [] else Polls(key, id, n - 1) + [PollJob(key, id)]
  }

  /** Waiting for the job, then the mock analysis of its transcript. */
  function Analyzing(key: string, t: TranscriptData, polls: seq<Reply<PollData>>, draw: nat -> Draw)
    : (r: (Response, seq<ProviderCall>))
    ensures |r.1| <= |polls|
    ensures forall j | 0 <= j < |r.1| :: r.1[j] == PollJob(key, t.id)
  {
    var run := AwaitTranscript(t.status, polls);
    (Answer(run.outcome, draw), Polls(key, t.id, run.polls))
  }

  /** The response for how the wait ended: none while pending, the failure, or the
      mock analysis of the transcript. */
  function Answer(outcome: WaitOutcome, draw: nat -> Draw): (r: Response)
    ensures r.NoResponse? <==> outcome.Pending?
    ensures r.Analysis? <==> outcome.Transcribed?
    ensures outcome.Failed? ==> r == ErrorResponse(outcome.failure.status, outcome.failure.message)
    ensures outcome.Transcribed? ==>
      && r.scores == MockScores(draw)
      && Contains(r.overallFeedback, Excerpt(outcome.text))
      && Contains(r.observation, Excerpt(outcome.text))
  {
    match outcome
    case Pending => NoResponse
    case Failed(f) => ErrorOf(f)
    case Transcribed(text) => Analysis(MockScores(draw), OverallFeedback(text), Observation(text))
  }

  /** The handler. The cooldown is checked first; once it passes, the arrival time is
      recorded before anything else is looked at, so a request that then fails
      validation or upstream still starts a new cooldown. */
  function Post(
    limits: Timestamps, req: Request, apiKey: Option<string>,
    upload: Reply<UploadData>, transcribe: Reply<TranscriptData>,
    polls: seq<Reply<PollData>>, draw: nat -> Draw): (o: Outcome)
    ensures CoolingDown(limits, ClientId(req.forwardedFor), req.now) ==>
      o == Outcome(ErrorResponse(429, TooManyRequests), limits, [])
    ensures !CoolingDown(limits, ClientId(req.forwardedFor), req.now) ==>
      o.limits == limits[ClientId(req.forwardedFor) := req.now]
    ensures o.calls != [] ==> Validated(limits, req, apiKey)
    ensures o.response.Analysis? ==> Validated(limits, req, apiKey) && upload.Ok? && transcribe.Ok?
  {
    var client := ClientId(req.forwardedFor);
    var verdict := CheckAndRecord(limits, client, req.now);
    if !verdict.allowed then Outcome(ErrorResponse(429, TooManyRequests), limits, [])
    else
      var (response, calls) := Process(req.form, apiKey, upload, transcribe, polls, draw);
      Outcome(response, verdict.next, calls)
  }

  /** Past the cooldown, the checks run in a fixed order — unreadable body, then a
      missing audio value, then a missing API key — each answering before any
      provider call, and each still leaving the new cooldown in place. */
  lemma ValidationOrder(
    limits: Timestamps, req: Request, apiKey: Option<string>,
    upload: Reply<UploadData>, transcribe: Reply<TranscriptData>,
    polls: seq<Reply<PollData>>, draw: nat -> Draw)
    requires !CoolingDown(limits, ClientId(req.forwardedFor), req.now)
    ensures var o := Post(limits, req, apiKey, upload, transcribe, polls, draw);
      && ClientId(req.forwardedFor) in o.limits
      && o.limits[ClientId(req.forwardedFor)] == req.now
      && (req.form.Unparsable? ==> o.response == ErrorResponse(500, InternalServerError) && o.calls == [])
      && (req.form.Parsed? && !HasAudio(req.form.audio) ==>
            o.response == ErrorResponse(400, NoAudio) && o.calls == [])
      && (req.form.Parsed? && HasAudio(req.form.audio) && !Truthy(apiKey) ==>
            o.response == ErrorResponse(500, NoApiKey) && o.calls == [])
      && (req.form.Parsed? && req.form.audio.Text? && req.form.audio.value != "" && Truthy(apiKey) ==>
            o.response == ErrorResponse(500, InternalServerError) && o.calls == [])
  {
  }

  /** A request changes the cooldown entry of its own client only. */
  lemma OnlyOwnEntryChanges(
    limits: Timestamps, req: Request, apiKey: Option<string>,
    upload: Reply<UploadData>, transcribe: Reply<TranscriptData>,
    polls: seq<Reply<PollData>>, draw: nat -> Draw, other: string)
    requires other != ClientId(req.forwardedFor)
    ensures var o := Post(limits, req, apiKey, upload, transcribe, polls, draw);
      && (other in o.limits <==> other in limits)
      && (other in limits ==> o.limits[other] == limits[other])
  {
  }

  /** A non-ok upload reply with a JSON body is answered with the provider's own
      status and message (or the default message), after exactly one call. */
  lemma UploadErrorPassedThrough(
    limits: Timestamps, req: Request, apiKey: Option<string>,
    code: int, e: Option<string>, transcribe: Reply<TranscriptData>,
    polls: seq<Reply<PollData>>, draw: nat -> Draw)
    requires Validated(limits, req, apiKey)
    ensures var o := Post(limits, req, apiKey, NotOk(code, Json(e)), transcribe, polls, draw);
      && o.response == ErrorResponse(code, OrElse(e, UploadFailed))
      && o.calls == [Upload(apiKey.value)]
  {
  }

  /** A non-ok transcription-request reply with a JSON body is answered with the
      provider's own status and message (or the default message). */
  lemma TranscribeErrorPassedThrough(
    limits: Timestamps, req: Request, apiKey: Option<string>,
    u: UploadData, code: int, e: Option<string>,
    polls: seq<Reply<PollData>>, draw: nat -> Draw)
    requires Validated(limits, req, apiKey)
    ensures var o := Post(limits, req, apiKey, Ok(u), NotOk(code, Json(e)), polls, draw);
      && o.response == ErrorResponse(code, OrElse(e, TranscribeFailed))
      && o.calls == [Upload(apiKey.value), Transcribe(apiKey.value, u.uploadUrl)]
  {
  }

  /** Every provider call carries the configured key; the calls are one upload, then
      (if it succeeded) one transcription request for the uploaded URL, then polls of
      the job that request created, at most one per poll reply. */
  lemma CallSequence(
    limits: Timestamps, req: Request, apiKey: Option<string>,
    upload: Reply<UploadData>, transcribe: Reply<TranscriptData>,
    polls: seq<Reply<PollData>>, draw: nat -> Draw)
    ensures var o := Post(limits, req, apiKey, upload, transcribe, polls, draw);
      && (o.calls != [] ==> o.calls[0] == Upload(apiKey.value))
      && (|o.calls| > 1 ==> upload.Ok? && o.calls[1] == Transcribe(apiKey.value, upload.payload.uploadUrl))
      && (|o.calls| > 2 ==> transcribe.Ok? && |o.calls| - 2 <= |polls|)
      && (forall j | 2 <= j < |o.calls| :: transcribe.Ok? && o.calls[j] == PollJob(apiKey.value, transcribe.payload.id))
  {
  }

  /** A successful answer comes from a validated request whose upload and
      transcription request succeeded and whose wait produced a transcript; it
      carries the mock scores and the two narratives built from that transcript. */
  lemma AnalysisFromTranscript(
    limits: Timestamps, req: Request, apiKey: Option<string>,
    upload: Reply<UploadData>, transcribe: Reply<TranscriptData>,
    polls: seq<Reply<PollData>>, draw: nat -> Draw)
    ensures var r := Post(limits, req, apiKey, upload, transcribe, polls, draw).response;
      r.Analysis? ==>
        && Validated(limits, req, apiKey) && upload.Ok? && transcribe.Ok?
        && AwaitTranscript(transcribe.payload.status, polls).outcome.Transcribed?
        && var text := AwaitTranscript(transcribe.payload.status, polls).outcome.text;
           && text != ""
           && r == Analysis(MockScores(draw), OverallFeedback(text), Observation(text))
           && Contains(r.overallFeedback, Excerpt(text))
           && Contains(r.observation, Excerpt(text))
  {
    var o := Post(limits, req, apiKey, upload, transcribe, polls, draw);
    if o.response.Analysis? {
      var p := Process(req.form, apiKey, upload, transcribe, polls, draw);
      assert !CoolingDown(limits, ClientId(req.forwardedFor), req.now) && o.response == p.0;
      var key := apiKey.value;
      var u := Uploading(key, upload, transcribe, polls, draw);
      assert p.0 == u.0;
      var t := Transcribing(key, upload.payload.uploadUrl, transcribe, polls, draw);
      assert u.0 == t.0;
      var a := Analyzing(key, transcribe.payload, polls, draw);
      assert t.0 == a.0;
      TranscriptOnlyFromCompletedPoll(transcribe.payload.status, polls);
    }
  }

  /** A successful answer holds nine scores, each within its parameter's range, and
      none for `rebatedCustomerOffer`. */
  lemma AnalysisShape(
    limits: Timestamps, req: Request, apiKey: Option<string>,
    upload: Reply<UploadData>, transcribe: Reply<TranscriptData>,
    polls: seq<Reply<PollData>>, draw: nat -> Draw)
    ensures var r := Post(limits, req, apiKey, upload, transcribe, polls, draw).response;
      r.Analysis? ==>
        && |r.scores| == 9
        && "rebatedCustomerOffer" !in r.scores
        && AllFit(Catalog.Parameters, r.scores)
        && (forall k | k in r.scores :: 0 <= r.scores[k] <= Catalog.MaxWeight)
  {
    AnalysisFromTranscript(limits, req, apiKey, upload, transcribe, polls, draw);
  }

  /** A transcription job that is already `completed` or `error` when requested is
      answered with 500 and no poll is made. */
  lemma SettledJobSkipsPolling(
    limits: Timestamps, req: Request, apiKey: Option<string>,
    u: UploadData, t: TranscriptData,
    polls: seq<Reply<PollData>>, draw: nat -> Draw)
    requires Validated(limits, req, apiKey)
    requires Settled(t.status)
    ensures var o := Post(limits, req, apiKey, Ok(u), Ok(t), polls, draw);
      && o.response == ErrorResponse(500, EmptyTranscript)
      && o.calls == [Upload(apiKey.value), Transcribe(apiKey.value, u.uploadUrl)]
  {
  }

  /** Once both provider requests succeed, the answer is decided by the wait alone,
      and the calls are the upload, the transcription request and one poll per reply
      the wait consumed. */
  lemma WaitDecides(
    limits: Timestamps, req: Request, apiKey: Option<string>,
    u: UploadData, t: TranscriptData,
    polls: seq<Reply<PollData>>, draw: nat -> Draw)
    requires Validated(limits, req, apiKey)
    ensures var o := Post(limits, req, apiKey, Ok(u), Ok(t), polls, draw);
      var run := AwaitTranscript(t.status, polls);
      && o.response == Answer(run.outcome, draw)
      && o.calls == [Upload(apiKey.value), Transcribe(apiKey.value, u.uploadUrl)] + Polls(apiKey.value, t.id, run.polls)
  {
    WaitAnswer(limits, req, apiKey, u, t, polls, draw);
    WaitCalls(limits, req, apiKey, u, t, polls, draw);
  }

  /** The answer part of `WaitDecides`. */
  lemma WaitAnswer(
    limits: Timestamps, req: Request, apiKey: Option<string>,
    u: UploadData, t: TranscriptData,
    polls: seq<Reply<PollData>>, draw: nat -> Draw)
    requires Validated(limits, req, apiKey)
    ensures Post(limits, req, apiKey, Ok(u), Ok(t), polls, draw).response
         == Answer(AwaitTranscript(t.status, polls).outcome, draw)
  {
    UploadedStage(limits, req, apiKey, u, t, polls, draw);
    TranscribedStage(apiKey.value, u.uploadUrl, t, polls, draw);
  }

  /** The call part of `WaitDecides`. */
  lemma WaitCalls(
    limits: Timestamps, req: Request, apiKey: Option<string>,
    u: UploadData, t: TranscriptData,
    polls: seq<Reply<PollData>>, draw: nat -> Draw)
    requires Validated(limits, req, apiKey)
    ensures Post(limits, req, apiKey, Ok(u), Ok(t), polls, draw).calls
         == [Upload(apiKey.value), Transcribe(apiKey.value, u.uploadUrl)]
            + Polls(apiKey.value, t.id, AwaitTranscript(t.status, polls).polls)
  {
    var key := apiKey.value;
    var waits := Polls(key, t.id, AwaitTranscript(t.status, polls).polls);
    UploadedStage(limits, req, apiKey, u, t, polls, draw);
    TranscribedStage(key, u.uploadUrl, t, polls, draw);
    PrependTwo(Upload(key), Transcribe(key, u.uploadUrl), waits);
  }

  /** Two calls put in front of the rest, one at a time or together. */
  lemma PrependTwo(a: ProviderCall, b: ProviderCall, rest: seq<ProviderCall>)
    ensures [a] + ([b] + rest) == [a, b] + rest
  {
  }

  /** A transcription request that succeeded answers what the wait answers, after that
      request. */
  lemma TranscribedStage(key: string, audioUrl: string, t: TranscriptData, polls: seq<Reply<PollData>>, draw: nat -> Draw)
    ensures var tr := Transcribing(key, audioUrl, Ok(t), polls, draw);
      var run := AwaitTranscript(t.status, polls);
      && tr.0 == Answer(run.outcome, draw)
      && tr.1 == [Transcribe(key, audioUrl)] + Polls(key, t.id, run.polls)
  {
    var a := Analyzing(key, t, polls, draw);
    assert Transcribing(key, audioUrl, Ok(t), polls, draw) == (a.0, [Transcribe(key, audioUrl)] + a.1);
  }

  /** A validated request whose upload succeeded answers what the transcription stage
      answers, after the upload call. */
  lemma UploadedStage(
    limits: Timestamps, req: Request, apiKey: Option<string>,
    u: UploadData, t: TranscriptData,
    polls: seq<Reply<PollData>>, draw: nat -> Draw)
    requires Validated(limits, req, apiKey)
    ensures var o := Post(limits, req, apiKey, Ok(u), Ok(t), polls, draw);
      var tr := Transcribing(apiKey.value, u.uploadUrl, Ok(t), polls, draw);
      o.response == tr.0 && o.calls == [Upload(apiKey.value)] + tr.1
  {
    var p := Process(req.form, apiKey, Ok(u), Ok(t), polls, draw);
    assert p == Uploading(apiKey.value, Ok(u), Ok(t), polls, draw);
  }

  /** A poll reporting the job as `error`, before any other stopping reply, is answered
      with 500 and the provider's message (or the default), after that poll. */
  lemma JobErrorAnswered(
    limits: Timestamps, req: Request, apiKey: Option<string>,
    u: UploadData, t: TranscriptData,
    polls: seq<Reply<PollData>>, draw: nat -> Draw, i: nat)
    requires Validated(limits, req, apiKey)
    requires !Settled(t.status)
    requires i < |polls| && polls[i].Ok? && polls[i].payload.status == Error
    requires forall j | 0 <= j < i :: !Stops(polls[j])
    ensures var o := Post(limits, req, apiKey, Ok(u), Ok(t), polls, draw);
      && o.response == ErrorResponse(500, OrElse(polls[i].payload.error, JobFailed))
      && |o.calls| == i + 3
  {
    WaitDecides(limits, req, apiKey, u, t, polls, draw);
    JobErrorReported(polls, i);
  }

  /** A non-ok poll with a JSON body, before any other stopping reply, is answered with
      that poll's HTTP status and the provider's message (or the default). */
  lemma PollErrorPassedThrough(
    limits: Timestamps, req: Request, apiKey: Option<string>,
    u: UploadData, t: TranscriptData,
    polls: seq<Reply<PollData>>, draw: nat -> Draw, i: nat, code: int, e: Option<string>)
    requires Validated(limits, req, apiKey)
    requires !Settled(t.status)
    requires i < |polls| && polls[i] == NotOk(code, Json(e))
    requires forall j | 0 <= j < i :: !Stops(polls[j])
    ensures var o := Post(limits, req, apiKey, Ok(u), Ok(t), polls, draw);
      && o.response == ErrorResponse(code, OrElse(e, PollFailed))
      && |o.calls| == i + 3
  {
    WaitDecides(limits, req, apiKey, u, t, polls, draw);
    FirstStopDecides(polls, i);
  }

  /** Requests without a forwarded-for header all count as the loopback client, so one
      of them starts a cooldown that refuses any other inside the interval. */
  lemma HeaderlessClientsShareCooldown(
    limits: Timestamps, first: Request, second: Request, apiKey: Option<string>,
    upload: Reply<UploadData>, transcribe: Reply<TranscriptData>,
    polls: seq<Reply<PollData>>, draw: nat -> Draw)
    requires !Truthy(first.forwardedFor) && !Truthy(second.forwardedFor)
    requires !CoolingDown(limits, LoopbackClient, first.now)
    requires second.now - first.now < RateLimitIntervalMs
    ensures var o := Post(limits, first, apiKey, upload, transcribe, polls, draw);
      Post(o.limits, second, apiKey, upload, transcribe, polls, draw).response == ErrorResponse(429, TooManyRequests)
  {
  }

  /** An upload that throws, or fails with a body that is not JSON, ends in the
      catch-all 500 after that one call. */
  lemma UploadFailureCaught(
    limits: Timestamps, req: Request, apiKey: Option<string>,
    upload: Reply<UploadData>, transcribe: Reply<TranscriptData>,
    polls: seq<Reply<PollData>>, draw: nat -> Draw)
    requires Validated(limits, req, apiKey)
    requires upload.Thrown? || (upload.NotOk? && upload.body.NotJson?)
    ensures var o := Post(limits, req, apiKey, upload, transcribe, polls, draw);
      && o.response == ErrorResponse(500, InternalServerError)
      && o.calls == [Upload(apiKey.value)]
  {
  }

  /** A transcription request that throws, or fails with a body that is not JSON, ends
      in the catch-all 500 after the upload and that request. */
  lemma TranscribeFailureCaught(
    limits: Timestamps, req: Request, apiKey: Option<string>,
    u: UploadData, transcribe: Reply<TranscriptData>,
    polls: seq<Reply<PollData>>, draw: nat -> Draw)
    requires Validated(limits, req, apiKey)
    requires transcribe.Thrown? || (transcribe.NotOk? && transcribe.body.NotJson?)
    ensures var o := Post(limits, req, apiKey, Ok(u), transcribe, polls, draw);
      && o.response == ErrorResponse(500, InternalServerError)
      && o.calls == [Upload(apiKey.value), Transcribe(apiKey.value, u.uploadUrl)]
  {
  }
}

=== FILE: catalog.dfy ===
/** The fixed rubric the mock analysis scores against: ten evaluation parameters,
    one of which has no input type. */
module Catalog {
  import opened Wrappers

  /** How a parameter is scored: all-or-nothing, or any whole number up to its weight. */
  datatype InputType = PassFail | Score

  datatype EvaluationParameter = EvaluationParameter(
    key: string,
    name: string,
    weight: nat,
    desc: string,
    inputType: Option<InputType>)

  const Parameters: seq<EvaluationParameter> := [
    EvaluationParameter("greeting", "Greeting", 5, "Call opening within 5 seconds", Some(PassFail)),
    EvaluationParameter("collectionUrgency", "Collection Urgency", 15, "Call urgency, cross-questioning", Some(Score)),
    EvaluationParameter("rebatedCustomerOffer", "Rebated Customer Offer", 15, "Customer offer provided for collections", None),
    EvaluationParameter("callEtiquette", "Call Etiquette", 10, "Customer response pending", Some(Score)),
    EvaluationParameter("callDisclaimer", "Call Disclaimer", 5, "Take permission before recording", Some(PassFail)),
    EvaluationParameter("correctDisposition", "Correct Disposition", 10, "Choose correct category with remarks", Some(PassFail)),
    EvaluationParameter("callClosing", "Call Closing", 5, "Thank you for your proper support", Some(PassFail)),
    EvaluationParameter("fatalDataDisclosure", "Fatal Data Disclosure", 15, "Disclosure of info type", Some(PassFail)),
    EvaluationParameter("fatalTapeDisclaimer", "Tape Disclaimer", 15, "Disclaimer about recording", Some(PassFail)),
    EvaluationParameter("fatalToneLanguage", "Tone & Language", 10, "Abusive or threatening speech", Some(PassFail))
  ]

  /** The largest weight in the catalog. */
  const MaxWeight: nat := 15

  /** No two parameters share a key. */
  predicate DistinctKeys(ps: seq<EvaluationParameter>)
  {
    forall i, j | 0 <= i < j < |ps| :: ps[i].key != ps[j].key
  }

  /** Number of parameters that carry an input type. */
  function TypedCount(ps: seq<EvaluationParameter>): nat
  {
    if |ps| == 0 then 0
    else (if ps[0].inputType.Some? then 1 else 0) + TypedCount(ps[1..])
  }

  /** Keys of the parameters that carry an input type. */
  function TypedKeys(ps: seq<EvaluationParameter>): set<string>
  {
    if |ps| == 0 then {}
    else (if ps[0].inputType.Some? then {ps[0].key} else {}) + TypedKeys(ps[1..])
  }

  /** Keys of all parameters. */
  function Keys(ps: seq<EvaluationParameter>): set<string>
  {
    if |ps| == 0 then {} else {ps[0].key} + Keys(ps[1..])
  }

  /** A key is among the keys exactly when some parameter carries it, and among the
      typed keys exactly when some typed parameter carries it. */
  lemma KeysMembership(ps: seq<EvaluationParameter>, k: string)
    ensures k in Keys(ps) <==> exists i | 0 <= i < |ps| :: ps[i].key == k
    ensures k in TypedKeys(ps) <==> exists i | 0 <= i < |ps| :: ps[i].key == k && ps[i].inputType.Some?
    ensures TypedKeys(ps) <= Keys(ps)
  {
    AllKeysMembership(ps, k);
    TypedKeysMembership(ps, k);
    TypedKeysWithinKeys(ps);
  }

  lemma {:induction false} AllKeysMembership(ps: seq<EvaluationParameter>, k: string)
    ensures k in Keys(ps) <==> exists i | 0 <= i < |ps| :: ps[i].key == k
    decreases |ps|
  {
    if |ps| > 0 {
      var rest := ps[1..];
      AllKeysMembership(rest, k);
      if k in Keys(rest) {
        var i :| 0 <= i < |rest| && rest[i].key == k;
        assert ps[i + 1] == rest[i];
      }
      if exists i | 0 <= i < |ps| :: ps[i].key == k {
        var i :| 0 <= i < |ps| && ps[i].key == k;
        if i > 0 { assert rest[i - 1] == ps[i]; }
      }
    }
  }

  lemma {:induction false} TypedKeysMembership(ps: seq<EvaluationParameter>, k: string)
    ensures k in TypedKeys(ps) <==> exists i | 0 <= i < |ps| :: ps[i].key == k && ps[i].inputType.Some?
    decreases |ps|
  {
    if |ps| > 0 {
      var rest := ps[1..];
      TypedKeysMembership(rest, k);
      if k in TypedKeys(rest) {
        var i :| 0 <= i < |rest| && rest[i].key == k && rest[i].inputType.Some?;
        assert ps[i + 1] == rest[i];
      }
      if exists i | 0 <= i < |ps| :: ps[i].key == k && ps[i].inputType.Some? {
        var i :| 0 <= i < |ps| && ps[i].key == k && ps[i].inputType.Some?;
        if i > 0 { assert rest[i - 1] == ps[i]; }
      }
    }
  }

  lemma {:induction false} TypedKeysWithinKeys(ps: seq<EvaluationParameter>)
    ensures TypedKeys(ps) <= Keys(ps)
    decreases |ps|
  {
    if |ps| > 0 {
      TypedKeysWithinKeys(ps[1..]);
    }
  }

  /** With distinct keys, the key of a parameter without an input type is not a typed
      key, so the typed keys are a proper subset of all keys. */
  lemma UntypedKeyExcluded(ps: seq<EvaluationParameter>, i: nat)
    requires DistinctKeys(ps)
    requires i < |ps| && ps[i].inputType.None?
    ensures ps[i].key !in TypedKeys(ps)
    ensures ps[i].key in Keys(ps)
    ensures TypedKeys(ps) < Keys(ps)
  {
    KeysMembership(ps, ps[i].key);
    forall j | 0 <= j < |ps| && j != i
      ensures ps[j].key != ps[i].key
    {
      if j < i { assert ps[j].key != ps[i].key; } else { assert ps[i].key != ps[j].key; }
    }
  }

  /** The tail of a sequence with distinct keys has distinct keys and does not carry
      the first key. */
  lemma DistinctTail(ps: seq<EvaluationParameter>)
    requires |ps| > 0 && DistinctKeys(ps)
    ensures DistinctKeys(ps[1..])
    ensures ps[0].key !in Keys(ps[1..])
  {
    var rest := ps[1..];
    KeysMembership(rest, ps[0].key);
    forall i | 0 <= i < |rest|
      ensures rest[i].key != ps[0].key
    {
      assert rest[i] == ps[i + 1];
    }
    forall i, j | 0 <= i < j < |rest|
      ensures rest[i].key != rest[j].key
    {
      assert rest[i] == ps[i + 1] && rest[j] == ps[j + 1];
    }
  }

  /** Every weight is at most 15, and 15 occurs. */
  lemma CatalogWeights()
    ensures forall i | 0 <= i < |Parameters| :: Parameters[i].weight <= MaxWeight
    ensures Parameters[1].weight == MaxWeight
  {
  }

  /** Exactly one of the ten parameters, `rebatedCustomerOffer`, has no input type. */
  lemma CatalogUntypedEntry()
    ensures |Parameters| == 10
    ensures Parameters[2].key == "rebatedCustomerOffer" && Parameters[2].inputType.None?
    ensures forall i | 0 <= i < |Parameters| && i != 2 :: Parameters[i].inputType.Some?
  {
  }

  /** The ten keys differ pairwise: all but two pairs already differ in length. */
  lemma CatalogKeysDistinct()
    ensures DistinctKeys(Parameters)
  {
    var lens := seq(|Parameters|, i requires 0 <= i < |Parameters| => |Parameters[i].key|);
    assert lens == [8, 17, 20, 13, 14, 18, 11, 19, 19, 17];
    assert Parameters[1].key[0] != Parameters[9].key[0];
    assert Parameters[7].key[5] != Parameters[8].key[5];
    forall i, j | 0 <= i < j < |Parameters|
      ensures Parameters[i].key != Parameters[j].key
    {
      if lens[i] == lens[j] {
        assert (i, j) == (1, 9) || (i, j) == (7, 8);
      }
    }
  }

  /** Nine of the ten parameters carry an input type. */
  lemma CatalogTypedCount()
    ensures TypedCount(Parameters) == 9
  {
    CatalogUntypedEntry();
    TypedCountOneUntyped(Parameters, 2);
  }

  /** When every parameter but the one at `u` is typed, all but one are counted. */
  lemma {:induction false} TypedCountOneUntyped(ps: seq<EvaluationParameter>, u: nat)
    requires u < |ps| && ps[u].inputType.None?
    requires forall i | 0 <= i < |ps| && i != u :: ps[i].inputType.Some?
    ensures TypedCount(ps) == |ps| - 1
    decreases |ps|
  {
    var rest := ps[1..];
    if u == 0 {
      TypedCountAllTyped(rest);
    } else {
      assert rest[u - 1] == ps[u];
      TypedCountOneUntyped(rest, u - 1);
    }
  }

  /** When every parameter is typed, all are counted. */
  lemma {:induction false} TypedCountAllTyped(ps: seq<EvaluationParameter>)
    requires forall i | 0 <= i < |ps| :: ps[i].inputType.Some?
    ensures TypedCount(ps) == |ps|
    decreases |ps|
  {
    if |ps| > 0 {
      TypedCountAllTyped(ps[1..]);
    }
  }
}

=== FILE: end_to_end.dfy ===
/** Facts that connect the endpoint's answers with how the page shows them. */
module EndToEnd {
  import opened Wrappers
  import opened RateLimiter
  import opened Provider
  import opened MockScorer
  import opened AnalyzeCall
  import opened ResultsPage

  /** No score the endpoint can send exceeds the largest catalog weight, 15, so every
      score is shown in the fail band. */
  lemma EmittedScoresShowAsFail(
    limits: Timestamps, req: Request, apiKey: Option<string>,
    upload: Reply<UploadData>, transcribe: Reply<TranscriptData>,
    polls: seq<Reply<PollData>>, draw: nat -> Draw)
    ensures var r := Post(limits, req, apiKey, upload, transcribe, polls, draw).response;
      r.Analysis? ==> forall k | k in r.scores :: GetScoreColor(r.scores[k]) == ScoreFail
  {
    AnalysisShape(limits, req, apiKey, upload, transcribe, polls, draw);
  }
}

=== FILE: mock_scorer.dfy ===
/** The placeholder analysis: pseudo-random scores for the catalog and two canned
    narratives quoting the start of the transcript. Each `Math.random()` result the
    scorer consumes is an explicit `Draw`. */
module MockScorer {
  import opened Wrappers
  import opened Catalog

  /** One result of `Math.random()`: a number in [0, 1). */
  type Draw = r: real | 0.0 <= r < 1.0

  /** The score a parameter of this kind and weight may receive. */
  predicate Fits(p: EvaluationParameter, s: int)
  {
    && 0 <= s <= p.weight
    && (p.inputType == Some(PassFail) ==> s == 0 || s == p.weight)
  }

  /** floor(d * (w + 1)) lies in [0, w] for every draw d. */
  lemma FloorScaledDrawInRange(d: Draw, w: nat)
    ensures 0 <= (d * (w + 1) as real).Floor <= w
  {
    var n := (w + 1) as real;
    var x := d * n;
    assert 0.0 <= x by {
      assert 0.0 <= n;
    }
    ProductPositive(1.0 - d, n);
    assert (1.0 - d) * n == n - x;
    var f := x.Floor;
    assert f as real <= x < n;
    assert f < w + 1;
  }

  lemma ProductPositive(a: real, b: real)
    requires 0.0 < a && 0.0 < b
    ensures 0.0 < a * b
  {
  }

  /** The score one draw gives a parameter of the given kind and weight:
      `floor(d * (w + 1))` for SCORE, and `w` when the draw exceeds one half,
      else 0, for PASS_FAIL. */
  function ScoreOne(kind: InputType, weight: nat, d: Draw): (s: int)
    ensures 0 <= s <= weight
    ensures kind == PassFail ==> s == 0 || s == weight
    ensures kind == PassFail ==> (d > 0.5 ==> s == weight) && (d <= 0.5 ==> s == 0)
  {
    match kind
    case Score =>
      FloorScaledDrawInRange(d, weight);
      (d * (weight + 1) as real).Floor
    case PassFail => if d > 0.5 then weight else 0
  }

  /** Every score in [0, w] is produced by some draw for a SCORE parameter. */
  lemma ScoreReachesEveryValue(weight: nat, s: nat)
    requires s <= weight
    ensures exists d: Draw :: ScoreOne(Score, weight, d) == s
  {
    var d: real := s as real / (weight + 1) as real;
    assert d * (weight + 1) as real == s as real;
    assert 0.0 <= d < 1.0;
    assert ScoreOne(Score, weight, d) == s;
  }

  /** A SCORE parameter gets `s` exactly when the draw lies in the `s`-th of `w + 1`
      equal slices of [0, 1), so every score in [0, w] is equally likely. */
  lemma ScoreInterval(w: nat, s: int, d: Draw)
    ensures ScoreOne(Score, w, d) == s <==> s as real / (w + 1) as real <= d < (s + 1) as real / (w + 1) as real
  {
    var n := (w + 1) as real;
    var f := (d * n).Floor;
    assert f as real <= d * n < f as real + 1.0;
    DivideCompare(s as real, d, n);
    DivideCompare((s + 1) as real, d, n);
  }

  /** Comparing with a quotient by a positive number is comparing with the product. */
  lemma DivideCompare(x: real, y: real, n: real)
    requires 0.0 < n
    ensures x / n <= y <==> x <= y * n
    ensures y < x / n <==> y * n < x
  {
    var q := x / n;
    assert q * n == x;
    assert (y - q) * n == y * n - x;
    SignOfProduct(y - q, n);
  }

  /** Multiplying by a positive number keeps the sign. */
  lemma SignOfProduct(a: real, n: real)
    requires 0.0 < n
    ensures 0.0 <= a * n <==> 0.0 <= a
    ensures 0.0 < a * n <==> 0.0 < a
  {
    if 0.0 < a {
      ProductPositive(a, n);
    } else if a < 0.0 {
      ProductPositive(-a, n);
      assert (-a) * n == -(a * n);
    }
  }

  /** Both 0 and the full weight are produced by some draw for a PASS_FAIL parameter. */
  lemma PassFailReachesBothValues(weight: nat)
    ensures ScoreOne(PassFail, weight, 0.25) == 0
    ensures ScoreOne(PassFail, weight, 0.75) == weight
  {
  }

  /** Scores for the parameters `ps`, in order, the draw for the next typed parameter
      being `draw(next)`. A parameter without an input type gets no entry and
      consumes no draw; a later parameter with the same key overwrites an earlier one. */
  function ScoreEntries(ps: seq<EvaluationParameter>, draw: nat -> Draw, next: nat): (r: map<string, int>)
    ensures r.Keys == TypedKeys(ps)
    decreases |ps|
  {
    if |ps| == 0 then map[]
    else
      match ps[0].inputType
      case None => ScoreEntries(ps[1..], draw, next)
      case Some(kind) =>
        map[ps[0].key := ScoreOne(kind, ps[0].weight, draw(next))] + ScoreEntries(ps[1..], draw, next + 1)
  }

  /** Every typed parameter of `ps` has a key in `scores` holding a score it admits. */
  predicate AllFit(ps: seq<EvaluationParameter>, scores: map<string, int>)
  {
    forall i | 0 <= i < |ps| && ps[i].inputType.Some? :: ps[i].key in scores && Fits(ps[i], scores[ps[i].key])
  }

  /** With distinct keys, each typed parameter gets its own entry: as many entries as
      typed parameters. */
  lemma ScoreCount(ps: seq<EvaluationParameter>, draw: nat -> Draw, next: nat)
    requires DistinctKeys(ps)
    ensures |ScoreEntries(ps, draw, next)| == TypedCount(ps)
  {
    TypedKeysCount(ps);
    assert |ScoreEntries(ps, draw, next).Keys| == |TypedKeys(ps)|;
  }

  /** With distinct keys there are as many typed keys as typed parameters. */
  lemma {:induction false} TypedKeysCount(ps: seq<EvaluationParameter>)
    requires DistinctKeys(ps)
    ensures |TypedKeys(ps)| == TypedCount(ps)
    decreases |ps|
  {
    if |ps| > 0 {
      DistinctTail(ps);
      KeysMembership(ps[1..], ps[0].key);
      TypedKeysCount(ps[1..]);
    }
  }

  /** With distinct keys, every typed parameter's score is one its kind and weight admit. */
  lemma ScoresFit(ps: seq<EvaluationParameter>, draw: nat -> Draw, next: nat)
    requires DistinctKeys(ps)
    ensures AllFit(ps, ScoreEntries(ps, draw, next))
  {
    var r := ScoreEntries(ps, draw, next);
    forall i | 0 <= i < |ps| && ps[i].inputType.Some?
      ensures ps[i].key in r && Fits(ps[i], r[ps[i].key])
    {
      KeysMembership(ps, ps[i].key);
      DrawOrder(ps, draw, next, i);
    }
  }

  /** Draws consumed by the first parameter of `ps`. */
  function FirstDraws(ps: seq<EvaluationParameter>): nat
    requires |ps| > 0
  {
    if ps[0].inputType.Some? then 1 else 0
  }

  /** One step of `ScoreEntries`: the first parameter's entry in front of the tail's. */
  lemma ScoreEntriesStep(ps: seq<EvaluationParameter>, draw: nat -> Draw, next: nat)
    requires |ps| > 0
    ensures var tail := ScoreEntries(ps[1..], draw, next + FirstDraws(ps));
      ScoreEntries(ps, draw, next)
        == if ps[0].inputType.Some?
           then map[ps[0].key := ScoreOne(ps[0].inputType.value, ps[0].weight, draw(next))] + tail
           else tail
  {
  }

  /** Past the first parameter, a key of the tail keeps the tail's score. */
  lemma LookupPastFirst(ps: seq<EvaluationParameter>, draw: nat -> Draw, next: nat, k: string)
    requires |ps| > 0 && k != ps[0].key
    requires k in TypedKeys(ps[1..])
    ensures k in ScoreEntries(ps, draw, next)
    ensures ScoreEntries(ps, draw, next)[k] == ScoreEntries(ps[1..], draw, next + FirstDraws(ps))[k]
  {
    ScoreEntriesStep(ps, draw, next);
  }

  /** The typed parameters before position `i` are the first one (if typed) and those
      of the tail before position `i - 1`. */
  lemma TypedCountShift(ps: seq<EvaluationParameter>, i: nat)
    requires 0 < i <= |ps|
    ensures TypedCount(ps[..i]) == FirstDraws(ps) + TypedCount(ps[1..][..i - 1])
  {
    assert ps[..i][1..] == ps[1..][..i - 1];
  }

  /** The typed parameter at position `i` is scored with the draw that follows one
      draw for each typed parameter before it. */
  lemma {:induction false} DrawOrder(ps: seq<EvaluationParameter>, draw: nat -> Draw, next: nat, i: nat)
    requires DistinctKeys(ps)
    requires i < |ps| && ps[i].inputType.Some?
    ensures ps[i].key in ScoreEntries(ps, draw, next)
    ensures ScoreEntries(ps, draw, next)[ps[i].key]
         == ScoreOne(ps[i].inputType.value, ps[i].weight, draw(next + TypedCount(ps[..i])))
    decreases i
  {
    if i == 0 {
      FirstEntryScore(ps, draw, next);
    } else {
      var rest := ps[1..];
      assert DistinctKeys(rest) && rest[i - 1] == ps[i] by {
        DistinctTail(ps);
      }
      DrawOrder(rest, draw, next + FirstDraws(ps), i - 1);
      LookupPastFirst(ps, draw, next, ps[i].key);
      TypedCountShift(ps, i);
    }
  }

  /** The first parameter, when typed, is scored with the first draw. */
  lemma FirstEntryScore(ps: seq<EvaluationParameter>, draw: nat -> Draw, next: nat)
    requires DistinctKeys(ps)
    requires |ps| > 0 && ps[0].inputType.Some?
    ensures ps[0].key in ScoreEntries(ps, draw, next)
    ensures ScoreEntries(ps, draw, next)[ps[0].key] == ScoreOne(ps[0].inputType.value, ps[0].weight, draw(next))
  {
    assert ps[0].key !in ScoreEntries(ps[1..], draw, next + 1) by {
      DistinctTail(ps);
      KeysMembership(ps[1..], ps[0].key);
    }
    ScoreEntriesStep(ps, draw, next);
  }

  /** The properties of the score map of a catalog with distinct keys, one of whose
      parameters has no input type. */
  lemma ScoreMapFacts(ps: seq<EvaluationParameter>, draw: nat -> Draw, untyped: nat, bound: int)
    requires DistinctKeys(ps)
    requires untyped < |ps| && ps[untyped].inputType.None?
    requires forall i | 0 <= i < |ps| :: ps[i].weight <= bound
    ensures var scores := ScoreEntries(ps, draw, 0);
      && |scores| == TypedCount(ps)
      && ps[untyped].key !in scores
      && scores.Keys < Keys(ps)
      && AllFit(ps, scores)
      && forall k | k in scores :: 0 <= scores[k] <= bound
  {
    var scores := ScoreEntries(ps, draw, 0);
    ScoreCount(ps, draw, 0);
    ScoresFit(ps, draw, 0);
    UntypedKeyExcluded(ps, untyped);
    ScoresBounded(ps, scores, bound);
  }

  /** When every score fits its parameter, no score exceeds the largest weight. */
  lemma ScoresBounded(ps: seq<EvaluationParameter>, scores: map<string, int>, bound: int)
    requires scores.Keys == TypedKeys(ps) && AllFit(ps, scores)
    requires forall i | 0 <= i < |ps| :: ps[i].weight <= bound
    ensures forall k | k in scores :: 0 <= scores[k] <= bound
  {
    forall k | k in scores
      ensures 0 <= scores[k] <= bound
    {
      KeysMembership(ps, k);
    }
  }

  /** The score map of one request: the catalog scored with a stream of draws. */
  function MockScores(draw: nat -> Draw): (scores: map<string, int>)
    ensures |scores| == 9
    ensures "rebatedCustomerOffer" !in scores
    ensures scores.Keys < Keys(Parameters)
    ensures AllFit(Parameters, scores)
    ensures forall k | k in scores :: 0 <= scores[k] <= MaxWeight
  {
    CatalogKeysDistinct();
    CatalogTypedCount();
    CatalogWeights();
    CatalogUntypedEntry();
    ScoreMapFacts(Parameters, draw, 2, MaxWeight);
    ScoreEntries(Parameters, draw, 0)
  }

  function Min(a: int, b: int): int
  {
    if a <= b then a else b
  }

  /** Every typed parameter of `ps` holds, in `scores`, its score for the draw that follows
      those of the typed parameters before it: draws are taken in catalog order. */
  predicate DrawnInOrder(ps: seq<EvaluationParameter>, draw: nat -> Draw, scores: map<string, int>)
  {
    forall i | 0 <= i < |ps| && ps[i].inputType.Some? ::
      && ps[i].key in scores
      && scores[ps[i].key] == ScoreOne(ps[i].inputType.value, ps[i].weight, draw(TypedCount(ps[..i])))
  }

  /** With distinct keys, the scored entries are drawn in order from the first draw on. */
  lemma ScoresDrawnInOrder(ps: seq<EvaluationParameter>, draw: nat -> Draw)
    requires DistinctKeys(ps)
    ensures DrawnInOrder(ps, draw, ScoreEntries(ps, draw, 0))
  {
    forall i | 0 <= i < |ps| && ps[i].inputType.Some?
      ensures ps[i].key in ScoreEntries(ps, draw, 0)
      ensures ScoreEntries(ps, draw, 0)[ps[i].key]
           == ScoreOne(ps[i].inputType.value, ps[i].weight, draw(TypedCount(ps[..i])))
    {
      DrawOrder(ps, draw, 0, i);
    }
  }

  /** The mock scores take one draw per typed catalog parameter, in catalog order. */
  lemma MockScoresFromDraws(draw: nat -> Draw)
    ensures DrawnInOrder(Parameters, draw, MockScores(draw))
  {
    CatalogKeysDistinct();
    ScoresDrawnInOrder(Parameters, draw);
  }

  /** Number of transcript characters quoted in the narratives. */
  const ExcerptLength: nat := 100

  /** `transcript.substring(0, Math.min(transcript.length, 100))`. */
  function Excerpt(transcript: string): (e: string)
    ensures |e| <= ExcerptLength
    ensures e <= transcript
    ensures |transcript| <= ExcerptLength ==> e == transcript
    ensures |transcript| > ExcerptLength ==> |e| == ExcerptLength
  {
    transcript[..Min(|transcript|, ExcerptLength)]
  }

  /** `needle` occurs in `hay` as a contiguous block. */
  predicate Contains(hay: string, needle: string)
  {
    exists i | 0 <= i <= |hay| - |needle| :: OccursAt(hay, needle, i)
  }

  /** `needle` occurs in `hay` starting at position `i`. */
  predicate OccursAt(hay: string, needle: string, i: int)
  {
    0 <= i <= |hay| - |needle| && hay[i..i + |needle|] == needle
  }

  const FeedbackLead: string :=
    "This feedback is based on the "
    + "transcribed text: \""
  const FeedbackTail: string :=
    "...\". The agent communicated clearly "
    + "and empathetically, effectively "
    + "addressing the customer's initial "
    + "concerns. However, there was a slight "
    + "delay in confirming the customer's "
    + "identity at the beginning of the call. "
    + "Further training on efficient data "
    + "verification processes would be "
    + "beneficial. The closing was "
    + "professional and clear."
  const ObservationLead: string :=
    "This observation is based on the "
    + "transcribed text: \""
  const ObservationTail: string :=
    "...\". Customer mentioned difficulty "
    + "understanding initial instructions. "
    + "Agent calmly re-explained. No "
    + "discernible background noise. Call "
    + "duration: Mock 4:30."

  /** The canned text with the excerpt inserted between its two fixed parts. */
  function Quote(lead: string, transcript: string, tail: string): (r: string)
    ensures |r| == |lead| + |Excerpt(transcript)| + |tail|
    ensures r[..|lead|] == lead
    ensures r[|lead|..|lead| + |Excerpt(transcript)|] == Excerpt(transcript)
    ensures r[|lead| + |Excerpt(transcript)|..] == tail
    ensures Contains(r, Excerpt(transcript))
  {
    var e := Excerpt(transcript);
    var r := lead + e + tail;
    assert r[|lead|..|lead| + |e|] == e;
    assert OccursAt(r, e, |lead|);
    r
  }

  /** The overall-feedback narrative for a transcript. */
  function OverallFeedback(transcript: string): (r: string)
    ensures r != []
    ensures Contains(r, Excerpt(transcript))
  {
    Quote(FeedbackLead, transcript, FeedbackTail)
  }

  /** The observation narrative for a transcript. */
  function Observation(transcript: string): (r: string)
    ensures r != []
    ensures Contains(r, Excerpt(transcript))
  {
    Quote(ObservationLead, transcript, ObservationTail)
  }
}

=== FILE: polling.dfy ===
/** The wait for an asynchronous transcription job. The handler re-fetches the job
    every three seconds until its status is `completed` or `error`; here the poll
    replies are a finite sequence, and running out of them means the handler is
    still waiting. */
module Polling {
  import opened Wrappers
  import opened Provider

  const EmptyTranscript: string := "Transcription failed or empty."
  const PollFailed: string := "Failed to poll transcription status."
  const JobFailed: string := "AssemblyAI transcription failed."

  /** How the wait ended: a non-empty transcript, an error response, or not yet. */
  datatype WaitOutcome = Transcribed(text: string) | Failed(failure: Failure) | Pending

  /** The outcome and the number of poll requests issued. */
  datatype PollRun = PollRun(outcome: WaitOutcome, polls: nat)

  /** A status that ends the loop. */
  predicate Settled(status: JobStatus)
  {
    status == Completed || status == Error
  }

  /** A poll reply after which the handler stops polling. */
  predicate Stops(reply: Reply<PollData>)
  {
    !reply.Ok? || Settled(reply.payload.status)
  }

  /** The outcome of the poll reply the handler stops on: a transport failure answers
      500, a non-ok reply with a JSON body passes its status through (one whose body is
      not JSON answers 500), a job error answers 500 with the provider's message, and a
      completed job yields its text unless that is missing or empty. */
  function StopOutcome(reply: Reply<PollData>): (o: WaitOutcome)
    requires Stops(reply)
    ensures !o.Pending?
    ensures o.Transcribed? <==> reply.Ok? && reply.payload.status == Completed && Truthy(reply.payload.text)
    ensures o.Transcribed? ==> o.text == reply.payload.text.value && o.text != ""
    ensures reply.Thrown? ==> o == Failed(Failure(500, InternalServerError))
    ensures reply.NotOk? ==> o == Failed(FailureFrom(reply.httpStatus, reply.body, PollFailed))
    ensures reply.Ok? && reply.payload.status == Error ==>
      o == Failed(Failure(500, OrElse(reply.payload.error, JobFailed)))
    ensures reply.Ok? && reply.payload.status == Completed && !Truthy(reply.payload.text) ==>
      o == Failed(Failure(500, EmptyTranscript))
  {
    match reply
    case Thrown => Failed(Failure(500, InternalServerError))
    case NotOk(code, body) => Failed(FailureFrom(code, body, PollFailed))
    case Ok(d) =>
      if d.status == Error then Failed(Failure(500, OrElse(d.error, JobFailed)))
      else if Truthy(d.text) then Transcribed(d.text.value)
      else Failed(Failure(500, EmptyTranscript))
  }

  /** The loop after the job was found still pending: one poll per reply until a reply
      stops it. */
  function PollLoop(replies: seq<Reply<PollData>>): (r: PollRun)
    ensures r.outcome.Pending? ==> r.polls == |replies| && forall j | 0 <= j < |replies| :: !Stops(replies[j])
    ensures !r.outcome.Pending? ==>
      && 1 <= r.polls <= |replies|
      && Stops(replies[r.polls - 1])
      && r.outcome == StopOutcome(replies[r.polls - 1])
      && forall j | 0 <= j < r.polls - 1 :: !Stops(replies[j])
    decreases |replies|
  {
    if |replies| == 0 then PollRun(Pending, 0)
    else if Stops(replies[0]) then PollRun(StopOutcome(replies[0]), 1)
    else
      var rest := PollLoop(replies[1..]);
      PollRun(rest.outcome, rest.polls + 1)
  }

  /** The whole wait, from the status the transcription request returned. A job that
      is already `completed` or `error` skips the loop with no transcript, which the
      handler reports as empty. */
  function AwaitTranscript(initial: JobStatus, replies: seq<Reply<PollData>>): (r: PollRun)
    ensures Settled(initial) ==> r == PollRun(Failed(Failure(500, EmptyTranscript)), 0)
    ensures !Settled(initial) ==> r == PollLoop(replies)
    ensures r.polls <= |replies|
  {
    if Settled(initial) then PollRun(Failed(Failure(500, EmptyTranscript)), 0)
    else PollLoop(replies)
  }

  /** A transcript is produced only by a `completed` poll reply carrying that same
      non-empty text, after which no further poll is issued. */
  lemma TranscriptOnlyFromCompletedPoll(initial: JobStatus, replies: seq<Reply<PollData>>)
    requires AwaitTranscript(initial, replies).outcome.Transcribed?
    ensures var r := AwaitTranscript(initial, replies);
      && !Settled(initial)
      && 1 <= r.polls <= |replies|
      && replies[r.polls - 1].Ok?
      && replies[r.polls - 1].payload.status == Completed
      && replies[r.polls - 1].payload.text == Some(r.outcome.text)
      && r.outcome.text != ""
  {
  }

  /** A poll reported as `error` ends the wait with 500 and the provider's message,
      or the default message when it gives none. */
  lemma JobErrorReported(replies: seq<Reply<PollData>>, i: nat)
    requires i < |replies| && replies[i].Ok? && replies[i].payload.status == Error
    requires forall j | 0 <= j < i :: !Stops(replies[j])
    ensures PollLoop(replies) == PollRun(Failed(Failure(500, OrElse(replies[i].payload.error, JobFailed))), i + 1)
  {
    FirstStopDecides(replies, i);
  }

  /** A non-ok poll reply with a JSON body ends the wait with the reply's own HTTP status. */
  lemma PollStatusPassedThrough(replies: seq<Reply<PollData>>, i: nat)
    requires i < |replies| && replies[i].NotOk? && replies[i].body.Json?
    requires forall j | 0 <= j < i :: !Stops(replies[j])
    ensures PollLoop(replies).outcome == Failed(FailureFrom(replies[i].httpStatus, replies[i].body, PollFailed))
    ensures PollLoop(replies).outcome.failure.status == replies[i].httpStatus
  {
    FirstStopDecides(replies, i);
  }

  /** The loop is decided by the first reply that stops it, whatever comes after. */
  lemma {:induction false} FirstStopDecides(replies: seq<Reply<PollData>>, i: nat)
    requires i < |replies| && Stops(replies[i])
    requires forall j | 0 <= j < i :: !Stops(replies[j])
    ensures PollLoop(replies) == PollRun(StopOutcome(replies[i]), i + 1)
    decreases i
  {
    if i > 0 {
      FirstStopDecides(replies[1..], i - 1);
    }
  }

  /** Without a stopping reply the handler keeps polling: one request per reply and
      no response. */
  lemma {:induction false} NoStopKeepsWaiting(replies: seq<Reply<PollData>>)
    requires forall j | 0 <= j < |replies| :: !Stops(replies[j])
    ensures PollLoop(replies) == PollRun(Pending, |replies|)
    decreases |replies|
  {
    if |replies| > 0 {
      NoStopKeepsWaiting(replies[1..]);
    }
  }
}

=== FILE: provider.dfy ===
/** What the handler sees of the speech-to-text provider: the outcome of each HTTP
    call, already decoded. The calls themselves are not modelled. */
module Provider {
  import opened Wrappers

  /** Body of the response the catch-all handler sends on any thrown error. */
  const InternalServerError: string := "Internal Server Error"

  /** A transcription job's `status` field. Any value other than `completed` or
      `error` keeps the handler polling; `Queued` and `Processing` stand for those. */
  datatype JobStatus = Queued | Processing | Completed | Error

  /** Body of a non-ok provider response: JSON with an optional `error` string, or
      something `response.json()` rejects. */
  datatype ErrorBody = NotJson | Json(error: Option<string>)

  /** Outcome of one provider call: an ok response with its decoded payload, a non-ok
      response with its HTTP status and body, or a call that threw (network failure,
      or an ok body that is not JSON). */
  datatype Reply<T> = Ok(payload: T) | NotOk(httpStatus: int, body: ErrorBody) | Thrown

  /** Payload of the upload call. */
  datatype UploadData = UploadData(uploadUrl: string)

  /** Payload of the transcription-request call. */
  datatype TranscriptData = TranscriptData(id: string, status: JobStatus)

  /** Payload of one poll of the transcription job. */
  datatype PollData = PollData(status: JobStatus, text: Option<string>, error: Option<string>)

  /** An error response of the handler: HTTP status and the `error` message. */
  datatype Failure = Failure(status: int, message: string)

  /** The error response for a non-ok provider reply: its status and its `error`
      message (or `fallback`), unless the body is not JSON, in which case reading it
      throws and the catch-all answers 500. */
  function FailureFrom(httpStatus: int, body: ErrorBody, fallback: string): (f: Failure)
    ensures body.NotJson? ==> f == Failure(500, InternalServerError)
    ensures body.Json? ==> f.status == httpStatus
    ensures body.Json? ==> f.message == fallback || (body.error == Some(f.message) && f.message != "")
    ensures body.Json? && Truthy(body.error) ==> f.message == body.error.value
  {
    match body
    case NotJson => Failure(500, InternalServerError)
    case Json(e) => Failure(httpStatus, OrElse(e, fallback))
  }
}

=== FILE: rate_limiter.dfy ===
/** The per-client cooldown of the analysis endpoint: a map from client id to the
    time (in milliseconds) of that client's last accepted request. The map lives as
    long as the server process; here it is threaded through explicitly. */
module RateLimiter {

  /** Minimum gap between two accepted requests of one client, in milliseconds. */
  const RateLimitIntervalMs: int := 10 * 1000

  /** Body of the 429 response. */
  const TooManyRequests: string := "Too many requests. Please wait a moment and try again."

  /** Last accepted request time for every client seen so far; never evicted. */
  type Timestamps = map<string, int>

  /** Whether the request was let through, and the map afterwards. */
  datatype Verdict = Verdict(allowed: bool, next: Timestamps)

  /** The client has a recorded request less than one interval before `now`. */
  predicate CoolingDown(state: Timestamps, client: string, now: int)
  {
    client in state && now - state[client] < RateLimitIntervalMs
  }

  /** Checks `client` against its cooldown and, when it passes, records `now`. */
  function CheckAndRecord(state: Timestamps, client: string, now: int): (v: Verdict)
    ensures v.allowed <==> client !in state || now - state[client] >= RateLimitIntervalMs
    ensures v.allowed ==> client in v.next && v.next[client] == now && v.next.Keys == state.Keys + {client}
    ensures !v.allowed ==> v.next == state
    ensures forall c :: c != client ==> (c in v.next <==> c in state)
    ensures forall c :: c != client && c in state ==> v.next[c] == state[c]
  {
    if CoolingDown(state, client, now) then Verdict(false, state)
    else Verdict(true, state[client := now])
  }

  /** A client that has never been seen is always let through. */
  lemma FirstRequestAllowed(state: Timestamps, client: string, now: int)
    requires client !in state
    ensures CheckAndRecord(state, client, now).allowed
    ensures CheckAndRecord(state, client, now).next == state[client := now]
  {
  }

  /** A second request inside the interval after an accepted one is rejected, and the
      recorded time stays that of the accepted one. */
  lemma SecondRequestWithinIntervalRejected(state: Timestamps, client: string, t1: int, t2: int)
    requires CheckAndRecord(state, client, t1).allowed
    requires t2 - t1 < RateLimitIntervalMs
    ensures !CheckAndRecord(CheckAndRecord(state, client, t1).next, client, t2).allowed
    ensures CheckAndRecord(CheckAndRecord(state, client, t1).next, client, t2).next[client] == t1
  {
  }

  /** Two requests of one client at least one interval apart are both accepted. */
  lemma RequestsOneIntervalApartAllowed(state: Timestamps, client: string, t1: int, t2: int)
    requires CheckAndRecord(state, client, t1).allowed
    requires t2 - t1 >= RateLimitIntervalMs
    ensures CheckAndRecord(CheckAndRecord(state, client, t1).next, client, t2).allowed
    ensures CheckAndRecord(CheckAndRecord(state, client, t1).next, client, t2).next[client] == t2
  {
  }

  /** Requests of different clients do not interfere: either may go first, each
      gets the same verdict, and the final map is the same. */
  lemma DistinctClientsCommute(state: Timestamps, a: string, ta: int, b: string, tb: int)
    requires a != b
    ensures CheckAndRecord(CheckAndRecord(state, a, ta).next, b, tb).allowed == CheckAndRecord(state, b, tb).allowed
    ensures CheckAndRecord(CheckAndRecord(state, b, tb).next, a, ta).allowed == CheckAndRecord(state, a, ta).allowed
    ensures CheckAndRecord(CheckAndRecord(state, a, ta).next, b, tb).next
         == CheckAndRecord(CheckAndRecord(state, b, tb).next, a, ta).next
  {
  }

  /** One incoming request: who sent it and when. */
  datatype Arrival = Arrival(client: string, now: int)

  /** The map after the first `k` requests of a sequence have been checked in order. */
  function Replay(init: Timestamps, arrivals: seq<Arrival>, k: nat): Timestamps
    requires k <= |arrivals|
  {
    if k == 0 then init
    else CheckAndRecord(Replay(init, arrivals, k - 1), arrivals[k - 1].client, arrivals[k - 1].now).next
  }

  /** Whether request `i` of the sequence was let through. */
  predicate AcceptedAt(init: Timestamps, arrivals: seq<Arrival>, i: nat)
    requires i < |arrivals|
  {
    CheckAndRecord(Replay(init, arrivals, i), arrivals[i].client, arrivals[i].now).allowed
  }

  /** After an accepted request `i` of client `c`, and as long as no later request of
      `c` is accepted, the map holds the time of request `i` for `c`. */
  lemma {:induction false} RecordedTimeHolds(init: Timestamps, arrivals: seq<Arrival>, i: nat, k: nat)
    requires i < k <= |arrivals|
    requires AcceptedAt(init, arrivals, i)
    requires forall m | i < m < k :: arrivals[m].client == arrivals[i].client ==> !AcceptedAt(init, arrivals, m)
    ensures arrivals[i].client in Replay(init, arrivals, k)
    ensures Replay(init, arrivals, k)[arrivals[i].client] == arrivals[i].now
    decreases k
  {
    if k > i + 1 {
      RecordedTimeHolds(init, arrivals, i, k - 1);
      var a := arrivals[k - 1];
      assert a.client == arrivals[i].client ==> !AcceptedAt(init, arrivals, k - 1);
      EntryKept(Replay(init, arrivals, k - 1), a.client, a.now, arrivals[i].client);
    }
  }

  /** An entry survives a request of another client and a rejected request. */
  lemma EntryKept(state: Timestamps, client: string, now: int, c: string)
    requires c in state
    requires client == c ==> !CheckAndRecord(state, client, now).allowed
    ensures c in CheckAndRecord(state, client, now).next
    ensures CheckAndRecord(state, client, now).next[c] == state[c]
  {
  }

  /** Two consecutive accepted requests of one client are at least one interval apart. */
  lemma AcceptedRequestsSpaced(init: Timestamps, arrivals: seq<Arrival>, i: nat, j: nat)
    requires i < j < |arrivals|
    requires arrivals[i].client == arrivals[j].client
    requires AcceptedAt(init, arrivals, i) && AcceptedAt(init, arrivals, j)
    requires forall m | i < m < j :: arrivals[m].client == arrivals[i].client ==> !AcceptedAt(init, arrivals, m)
    ensures arrivals[j].now - arrivals[i].now >= RateLimitIntervalMs
  {
    RecordedTimeHolds(init, arrivals, i, j);
  }
}

=== FILE: results_page.dfy ===
/** The browser page: the score colour bands, the label shown for each score key,
    and the state changes made by dropping or choosing a file and by starting and
    finishing an analysis. React rendering and object URLs are left to the caller. */
module ResultsPage {
  import opened Wrappers

  // ---------------------------------------------------------------------------
  // Score colour bands

  /** The CSS class a score is shown with; `NoColor` is the empty class name. */
  datatype ScoreColor = ScoreFail | ScoreMedium | ScorePass | NoColor

  function GetScoreColor(score: int): (c: ScoreColor)
    ensures c == ScoreFail <==> 0 <= score <= 49
    ensures c == ScoreMedium <==> 50 <= score <= 79
    ensures c == ScorePass <==> 80 <= score <= 100
    ensures c == NoColor <==> score < 0 || 100 < score
  {
    if 0 <= score && score <= 49 then ScoreFail
    else if 50 <= score && score <= 79 then ScoreMedium
    else if 80 <= score && score <= 100 then ScorePass
    else NoColor
  }

  /** Rank of a band from worst to best. */
  function Rank(c: ScoreColor): nat
    requires c != NoColor
  {
    match c
    case ScoreFail => 0
    case ScoreMedium => 1
    case ScorePass => 2
  }

  /** On [0, 100] every score has a band, and a higher score never gets a worse band. */
  lemma BandsMonotone(a: int, b: int)
    requires 0 <= a <= b <= 100
    ensures GetScoreColor(a) != NoColor && GetScoreColor(b) != NoColor
    ensures Rank(GetScoreColor(a)) <= Rank(GetScoreColor(b))
  {
  }

  // ---------------------------------------------------------------------------
  // Score key labels

  predicate IsUpper(c: char) { 'A' <= c <= 'Z' }

  predicate IsLower(c: char) { 'a' <= c <= 'z' }

  function ToUpper(c: char): char
  {
    if IsLower(c) then (c as int - 'a' as int + 'A' as int) as char else c
  }

  function ToLower(c: char): char
  {
    if IsUpper(c) then (c as int - 'A' as int + 'a' as int) as char else c
  }

  /** Number of upper-case letters in `s`. */
  function CountUpper(s: string): nat
  {
    if |s| == 0 then 0 else (if IsUpper(s[0]) then 1 else 0) + CountUpper(s[1..])
  }

  /** `s.replace(/([A-Z])/g, " $1")`: a space before every upper-case letter. */
  function SpaceBeforeCapitals(s: string): (r: string)
    ensures |r| == |s| + CountUpper(s)
    ensures |r| > 0 ==> !IsUpper(r[0])
    ensures |s| > 0 && !IsUpper(s[0]) ==> r[0] == s[0]
  {
    if |s| == 0 then ""
    else (if IsUpper(s[0]) then [' ', s[0]] else [s[0]]) + SpaceBeforeCapitals(s[1..])
  }

  /** `s.replace(/^./, c => c.toUpperCase())`. */
  function UppercaseFirst(s: string): (r: string)
    ensures |r| == |s|
    ensures |s| > 0 ==> r[0] == ToUpper(s[0]) && r[1..] == s[1..]
  {
    if |s| == 0 then s else [ToUpper(s[0])] + s[1..]
  }

  /** The label shown for a score key: `callEtiquette` becomes `Call Etiquette`. */
  function Label(key: string): (r: string)
    ensures |r| == |key| + CountUpper(key)
    ensures |key| > 0 && IsLower(key[0]) ==> IsUpper(r[0])
    ensures |key| > 0 && IsUpper(key[0]) ==> r[0] == ' '
  {
    UppercaseFirst(SpaceBeforeCapitals(key))
  }

  /** Removes every space that directly precedes an upper-case letter. */
  function DropSpacesBeforeCapitals(s: string): string
  {
    if |s| == 0 then s
    else if 2 <= |s| && s[0] == ' ' && IsUpper(s[1]) then DropSpacesBeforeCapitals(s[1..])
    else [s[0]] + DropSpacesBeforeCapitals(s[1..])
  }

  /** Lower-cases the first character when it is an upper-case letter. */
  function LowercaseFirst(s: string): string
  {
    if |s| == 0 then s else [ToLower(s[0])] + s[1..]
  }

  /** Recovers a key from its label. */
  function Unlabel(shown: string): string
  {
    DropSpacesBeforeCapitals(LowercaseFirst(shown))
  }

  /** Deleting the inserted spaces gives back the original string. */
  lemma {:induction false} DropUndoesSpacing(s: string)
    ensures DropSpacesBeforeCapitals(SpaceBeforeCapitals(s)) == s
    decreases |s|
  {
    if |s| > 0 {
      var rest := SpaceBeforeCapitals(s[1..]);
      DropUndoesSpacing(s[1..]);
      if IsUpper(s[0]) {
        assert SpaceBeforeCapitals(s) == [' ', s[0]] + rest;
        assert ([' ', s[0]] + rest)[1..] == [s[0]] + rest;
        assert ([s[0]] + rest)[1..] == rest;
      } else {
        assert SpaceBeforeCapitals(s) == [s[0]] + rest;
        assert ([s[0]] + rest)[1..] == rest;
        if |rest| > 0 {
          assert !IsUpper(rest[0]);
        }
      }
    }
  }

  /** Every label gives back its key: the label transform loses nothing. */
  lemma LabelRoundTrip(key: string)
    ensures Unlabel(Label(key)) == key
  {
    var spaced := SpaceBeforeCapitals(key);
    if |spaced| > 0 {
      assert LowercaseFirst(UppercaseFirst(spaced)) == spaced;
    }
    DropUndoesSpacing(key);
  }

  /** Distinct keys get distinct labels. */
  lemma LabelInjective(a: string, b: string)
    requires Label(a) == Label(b)
    ensures a == b
  {
    LabelRoundTrip(a);
    LabelRoundTrip(b);
  }

  // ---------------------------------------------------------------------------
  // Page state

  /** A file as the page sees it: its name and MIME type. */
  datatype AudioFile = AudioFile(name: string, mimeType: string)

  /** The analysis the endpoint returned. */
  datatype AnalysisResult = AnalysisResult(scores: map<string, int>, overallFeedback: string, observation: string)

  datatype PageState = PageState(
    audioFile: Option<AudioFile>,
    audioUrl: Option<string>,
    analysisResult: Option<AnalysisResult>,
    loading: bool,
    error: Option<string>)

  const DropRejected: string := "Please drop a valid .mp3 or .wav audio file."
  const NoFileSelected: string := "Please upload an audio file first."
  const AnalyzeFailed: string := "Failed to analyze audio."
  const UnexpectedFailure: string := "An unexpected error occurred during analysis."

  /** The page's state when it first renders. */
  const Initial: PageState := PageState(None, None, None, false, None)

  /** The MIME types a drop accepts. */
  predicate AcceptedType(mimeType: string)
  {
    mimeType == "audio/mpeg" || mimeType == "audio/wav"
  }

  /** Selecting `file` with preview URL `objectUrl`: the previous result and error go. */
  function Select(st: PageState, file: AudioFile, objectUrl: string): PageState
  {
    st.(audioFile := Some(file), audioUrl := Some(objectUrl), analysisResult := None, error := None)
  }

  /** A file dropped on the upload area (`dropped` is the first dropped file, if any).
      `objectUrl` is the preview URL the browser would create for it. */
  function HandleDrop(st: PageState, dropped: Option<AudioFile>, objectUrl: string): (st': PageState)
    ensures st'.loading == st.loading
    ensures dropped.Some? && AcceptedType(dropped.value.mimeType) ==>
      st'.audioFile == dropped && st'.audioUrl == Some(objectUrl) && st'.analysisResult.None? && st'.error.None?
    ensures !(dropped.Some? && AcceptedType(dropped.value.mimeType)) ==>
      && st'.error == Some(DropRejected)
      && st'.audioFile == st.audioFile && st'.audioUrl == st.audioUrl && st'.analysisResult == st.analysisResult
  {
    if dropped.Some? && AcceptedType(dropped.value.mimeType) then Select(st, dropped.value, objectUrl)
    else st.(error := Some(DropRejected))
  }

  /** A drop clears the error exactly when it delivers an `audio/mpeg` or `audio/wav`
      file; the comparison is exact, so other spellings are refused. */
  lemma DropAcceptedIff(st: PageState, dropped: Option<AudioFile>, objectUrl: string)
    ensures HandleDrop(st, dropped, objectUrl).error.None? <==>
      dropped.Some? && (dropped.value.mimeType == "audio/mpeg" || dropped.value.mimeType == "audio/wav")
    ensures HandleDrop(st, Some(AudioFile("call.mp3", "audio/mp3")), objectUrl).error == Some(DropRejected)
    ensures HandleDrop(st, Some(AudioFile("call.wav", "audio/x-wav")), objectUrl).error == Some(DropRejected)
  {
  }

  /** A file chosen through the file picker; the picker's own filter is the only type
      check, so any chosen file is taken. Choosing nothing changes nothing. */
  function HandleFileChange(st: PageState, chosen: Option<AudioFile>, objectUrl: string): (st': PageState)
    ensures chosen.None? ==> st' == st
    ensures chosen.Some? ==>
      st'.audioFile == chosen && st'.audioUrl == Some(objectUrl) && st'.analysisResult.None? && st'.error.None?
    ensures st'.loading == st.loading
  {
    if chosen.Some? then Select(st, chosen.value, objectUrl) else st
  }

  /** The state after "Process Feedback" is pressed, and whether a request is sent. */
  datatype Submission = Submission(state: PageState, sendsRequest: bool)

  function HandleProcessFeedback(st: PageState): (s: Submission)
    ensures s.sendsRequest <==> st.audioFile.Some?
    ensures st.audioFile.None? ==>
      s.state == st.(error := Some(NoFileSelected)) && s.state.loading == st.loading
    ensures st.audioFile.Some? ==>
      && s.state == st.(loading := true, error := None, analysisResult := None)
      && s.state.loading && s.state.error.None? && s.state.analysisResult.None?
  {
    if st.audioFile.None? then Submission(st.(error := Some(NoFileSelected)), false)
    else Submission(st.(loading := true, error := None, analysisResult := None), true)
  }

  /** The button is enabled when a file is selected and no analysis is running. */
  predicate ProcessEnabled(st: PageState)
  {
    st.audioFile.Some? && !st.loading
  }

  /** Pressing an enabled button always sends a request; the no-file guard only
      matters when the handler is reached otherwise. */
  lemma EnabledButtonSends(st: PageState)
    requires ProcessEnabled(st)
    ensures HandleProcessFeedback(st).sendsRequest
    ensures HandleProcessFeedback(st).state.loading
  {
  }

  /** What the request produced: the analysis, a non-ok response with its optional
      `error` field, or a thrown error with its message. */
  datatype ClientReply = Delivered(result: AnalysisResult) | Rejected(error: Option<string>) | Threw(message: string)

  /** The state once the request has settled: loading ends, and either the result or
      an error message is shown. */
  function FinishAnalysis(st: PageState, reply: ClientReply): (st': PageState)
    ensures !st'.loading
    ensures st'.audioFile == st.audioFile && st'.audioUrl == st.audioUrl
    ensures reply.Delivered? ==> st'.analysisResult == Some(reply.result) && st'.error == st.error
    ensures reply.Rejected? ==> st'.analysisResult == st.analysisResult && st'.error.Some? && st'.error.value != ""
    ensures reply.Rejected? && Truthy(reply.error) ==> st'.error == reply.error
    ensures reply.Rejected? && !Truthy(reply.error) ==> st'.error == Some(AnalyzeFailed)
    ensures reply.Threw? ==> st'.error.Some? && st'.error.value != ""
    ensures reply.Threw? ==> st'.analysisResult == st.analysisResult
    ensures reply.Threw? && reply.message != "" ==> st'.error == Some(reply.message)
    ensures reply.Threw? && reply.message == "" ==> st'.error == Some(UnexpectedFailure)
  {
    match reply
    case Delivered(r) => st.(analysisResult := Some(r), loading := false)
    case Rejected(e) => st.(error := Some(OrElse(Some(OrElse(e, AnalyzeFailed)), UnexpectedFailure)), loading := false)
    case Threw(m) => st.(error := Some(OrElse(Some(m), UnexpectedFailure)), loading := false)
  }

  /** A successful round trip shows exactly the delivered result and no error. */
  lemma SuccessfulRoundTrip(st: PageState, result: AnalysisResult)
    requires st.audioFile.Some?
    ensures var sub := HandleProcessFeedback(st);
      var done := FinishAnalysis(sub.state, Delivered(result));
      && sub.sendsRequest
      && done.analysisResult == Some(result)
      && done.error.None?
      && !done.loading
  {
  }
}

=== FILE: wrappers.dfy ===
/** Small value wrappers shared by the whole model. */
module Wrappers {

  /** A value that may be missing (`null`/`undefined` on the JavaScript side). */
  datatype Option<+T> = None | Some(value: T)

  /** True when `v` is a string JavaScript treats as truthy: present and non-empty. */
  predicate Truthy(v: Option<string>)
  {
    v.Some? && v.value != ""
  }

  /** JavaScript's `v || fallback` on an optional string: the value itself when it
      is truthy, otherwise the fallback. */
  function OrElse(v: Option<string>, fallback: string): (r: string)
    ensures Truthy(v) ==> r == v.value
    ensures !Truthy(v) ==> r == fallback
    ensures r == fallback || (v == Some(r) && r != "")
  {
    if Truthy(v) then v.value else fallback
  }
}
